=== FILE: README.md ===
# BasicComputer in Dafny

A model of `Computer`, the Python class that simulates a small
accumulator machine. Its parts:

- **Memory.** 64 words, kept as 8 rows of 8 and addressed linearly.
- **Registers.** PC, AC and IR.
- **Instruction set.** Two-word memory-reference instructions AND, ADD,
  SUB, LDA, STA, BUN and ISZ, each with a direct opcode and an indirect
  opcode (+0x80). One-word register instructions CLA and CMA. HLT.
- **Loop.** A fetch-execute loop that runs until HLT.

The project has six modules.

- `outcomes.dfy` (`Outcomes`): `Option`, and a `Result` that the `:-`
  operator can propagate. Two of the exceptions the Python code can
  raise become `Result` errors: IndexError for an address outside memory,
  and AttributeError for the three opcodes whose methods do not exist.
  OverflowError from the float modulus in `add`/`sub`, and the loader's
  ValueError, are not modelled (see "Left out").
- `alu.dfy` (`Alu`): the value-level helpers.
  - `bpad`.
  - `check`, modelled on the digit strings that `bin`, the padding, the
    flip comprehension and `int(s, 2)` produce.
  - Python's `&` and `~` on unbounded integers.
  - The sign conversion in `put`.
- `isa.dfy` (`Isa`): the machine as pure state transitions. It defines:
  - list addressing, including Python's negative indices;
  - operand resolution;
  - the opcode table;
  - one instruction, one loop cycle, and a run bounded by a number of
    cycles.
- `computer.dfy` (`Machine`): the class itself.
  - `memory` is an 8×8 `array2` that `Put` updates in place.
  - `PC`, `AC` and `IR` are mutable fields.
  - The state is read through `View()`.
  - `Get` and `GetValue` change nothing. They return exactly `Isa.Read`
    and `Isa.ReadValue` of the cells, IndexError included.
  - The constructor leaves the state `Isa.Load` gives.
  - `Put` leaves the memory `Isa.Write` gives. On IndexError it leaves
    memory unchanged.
  - Each method below is proved to leave the state its `Isa` counterpart
    gives when that counterpart succeeds, and to return the same fault
    when it fails:
    - `AND`, `ADD`, `SUB` and `LDA`: `Isa.ArithStep`;
    - `STA`, `BUN` and `ISZ`: `Isa.StaStep`, `Isa.BunStep` and
      `Isa.IszStep`;
    - `Execute`: `Isa.Execute`;
    - `Step` and `Run`: `Isa.Run` with one cycle and with the given fuel.
  - `CLA` and `CMA` are proved to set AC to 0 and to `~AC` and to change
    nothing else.
  - After a fault, the state these instruction and loop methods leave is
    not specified.
  - `add` and `sub` are methods of the class, as in the source. They are
    proved to return (a + b) mod 256 and (a − b) mod 256.
  - `comp` is a function of the class. A lemma shows that the opcode
    pairs `execute` passes to it are exactly the rows of the decode
    table.
  - `bpad` and `check` are functions in `Alu`; they do not touch the
    machine.
- `properties.dfy` (`Properties`): what one cycle does for each kind of
  opcode, stated on plain memory indexing, plus facts about runs.
- `multiply.dfy` (`Multiply`): a multiplication-by-repeated-addition
  program built from ADD, ISZ, BUN, STA, CLA and HLT. It is proved to
  compute x·n mod 256 in 3n + 2 cycles, for every x and every count n
  from 1 to 256.

### ISZ

- **Skip distance.** ISZ at address p moves PC onto its operand word,
  and adds 2 more when the result is zero; the loop then adds 1. The
  next fetch is therefore at p + 4 after a skip and at p + 2 otherwise.
  A skip passes over the one two-word instruction at p + 2; without the
  skip nothing is passed over (`Isa.IszStep`,
  `Properties.IszInstruction`).
- **Opcode 0xA0.** It behaves exactly like 0x20: the code never reads
  the address a second time.

Words are unbounded integers, as in Python.
- ADD and SUB reduce their result to a byte.
- `put` stores any integer unchanged, so STA can store a negative AC
  (after CMA) or a word above 255. ISZ always stores a byte.
- CMA sets AC to `~AC`, which is negative whenever AC ≥ 0.

## Model

| member | source | states |
|---|---|---|
| Alu.Bits | computer.py:54 | `bin(v)[2:]` for v ≥ 0 is a non-empty string of binary digits whose first digit is 1 when v > 0 |
| Alu.ParseBits | computer.py:54 | `int(bin(v)[2:], 2)` gives v back |
| Alu.BPad | computer.py:49-51 | the padded string has length max(8, \|s\|), ends with s, and is '0' before it |
| Alu.BitsLength | computer.py:53-59 | the number of binary digits puts v between consecutive powers of two; at most 8 digits exactly when v < 256 |
| Alu.Check | computer.py:53-59 | the `bin` slice, `bpad`, the flip comprehension and `int(s, 2)` as written; its contract says the result is v itself or negative, and `Alu.CheckValue` gives the result for every v |
| Alu.CheckValue | computer.py:53-59 | `check(v)` is v for v < 128, negatives included (their `bin` slice starts with 'b'); v − 256 on 128..255; v − 2^(digits of v) from 256 up |
| Alu.CheckByte | computer.py:53-59 | on a byte w, `check` is a two's-complement decoding: the result lies in [−128, 127], is negative exactly when w ≥ 128, and equals w modulo 256 |
| Alu.CheckCongruent | computer.py:53-59 | `check(v)` is congruent to v modulo 256, for every integer v |
| Alu.ModCongruent | computer.py:61-69 | congruent operands give congruent sums and differences modulo 256 |
| Alu.BitAnd | computer.py:77 | Python's `&` on unbounded two's-complement integers; its contract says the result is negative exactly when both operands are, and `Alu.BitAndBits` gives it bit by bit |
| Alu.BitAndBits | computer.py:77 | bit i of `AC & value` is 1 exactly when bit i of both operands is 1, for negative operands too |
| Alu.BitAndRange | computer.py:77 | and with a non-negative mask y lies between 0 and y |
| Alu.BitAndByte | computer.py:77 | and with a byte depends only on AC mod 256 and lies between 0 and the byte |
| Alu.StoreForm | computer.py:37 | the negative branch of `put`, `(~(-1 * value)) + 1`, returns the value unchanged |
| Alu.Not | computer.py:139 | Python's `~x` = −x − 1; its contract says it flips the sign and the lowest bit, and `Alu.NotByte` states it on bytes |
| Alu.NotByte | computer.py:139 | `~x` on a byte is negative, lies in [−256, −1], is 255 − x modulo 256, and applied twice gives x |
| Isa.Load | computer.py:11-22 | after construction PC, AC and IR are 0 and word 8·row + col is image[row][col] |
| Isa.Read | computer.py:24-27 | reading address a gives M[a] on 0..63, M[a + 64] on −64..−1 (negative row index), and IndexError otherwise |
| Isa.ReadValue | computer.py:29-32 | `getValue`: it succeeds exactly when address a and the word it holds are both in −64..63; on 0..63 it gives M[M[a]]; a failure is IndexError (`Machine.Computer.GetValue` is proved equal to it) |
| Isa.Write | computer.py:34-38 | writing succeeds exactly on −64..63; the written cell then reads back v and every other cell is unchanged |
| Isa.Encode | computer.py:142-189 | every instruction in the dispatch table has a byte opcode that decodes back to it |
| Isa.Decode | computer.py:142-189 | the opcode table `execute` tests: only bytes 1..255 are assigned, and an instruction with two forms is indirect exactly when its opcode has the 0x80 bit; `Isa.Encode` and `Properties.EncodeDecode` make it a bijection with the table |
| Isa.ArithStep | computer.py:71-104 | AND, ADD, SUB and LDA: memory and IR are kept and PC moves onto the operand word; ADD and SUB leave a byte in AC, AND with AC ≥ 0 a non-negative AC; a failure is IndexError (`Properties.ArithInstruction` gives the full effect) |
| Isa.Operand | computer.py:74-102 | the operand of AND, ADD, SUB and LDA: M[M[p+1]] in the direct form and M[M[M[p+1]]] in the indirect form when the addresses are in 0..63; a failure is IndexError (`Properties.ArithInstruction` states the instruction with it) |
| Isa.Target | computer.py:109-118 | the address STA and BUN use: M[p+1] in the direct form and M[M[p+1]] in the indirect form; a failure is IndexError (`Properties.StaInstruction` and `Properties.BunInstruction` state the instructions with it) |
| Isa.StaStep | computer.py:106-112 | STA: AC and IR are kept and PC moves onto the operand word; every cell that changes now holds AC; a failure is IndexError (`Properties.StaInstruction` names the cell) |
| Isa.BunStep | computer.py:114-120 | BUN: memory, AC and IR are kept; the direct form cannot fail once the operand word is in memory; a failure is IndexError (`Properties.BunInstruction` gives the new PC) |
| Isa.IszStep | computer.py:122-132 | ISZ: AC and IR are kept; PC moves 1 or 3; a cell that changes holds a byte, and it is 0 exactly when PC moves 3; a failure is IndexError (`Properties.IszInstruction` gives the full effect) |
| Isa.Execute | computer.py:142-189 | `execute`: IR is never changed; HLT and unassigned opcodes leave the state as it was; the only faults are IndexError and AttributeError |
| Isa.Cycle | computer.py:212-222 | one pass of `run`'s loop: a halt happens only on HLT and leaves the state as it was with IR = HLT; the only faults are IndexError and AttributeError (`Properties.CycleExecutes` gives the running case) |
| Isa.RunSplit | computer.py:211-223 | running m + n cycles is running m and, if they neither halted nor faulted, n more from there |
| Isa.Run | computer.py:211-223 | `run` cut off after `fuel` cycles: no fuel leaves the state as it was; a run halts only with HLT in IR and faults only with IndexError or AttributeError; `Isa.RunSplit` and `Properties.HaltIsFinal` compose runs |
| Isa.IterateEnds | computer.py:211-223 | a run of any length halts and faults only in the ways a single cycle does |
| Machine.Computer.constructor | computer.py:11-22 | the new machine has fresh memory and is in state `Isa.Load(image)` |
| Machine.Computer.Get | computer.py:24-27 | returns exactly `Isa.Read` of the current memory, IndexError included |
| Machine.Computer.GetValue | computer.py:29-32 | returns the word at the address held at `address`, failing as either read fails |
| Machine.Computer.Put | computer.py:34-38 | memory becomes `Isa.Write(old memory, address, value)`; on IndexError memory is unchanged |
| Machine.Computer.CompMatchesTable | computer.py:40-47 | the opcode pairs `execute` gives `comp` agree with the decode table: a memory-reference opcode or that opcode + 0x80 matches IR exactly when IR decodes to the instruction in one of its two forms; a register or halt opcode matches exactly when IR decodes to it |
| Machine.Computer.Add | computer.py:61-64 | returns a byte, the sum of the operands modulo 256 |
| Machine.Computer.Sub | computer.py:66-69 | returns a byte, the difference of the operands modulo 256 |
| Machine.Computer.AND | computer.py:71-78 | PC moves onto the operand word and AC becomes `AC & M[M[p+1]]` (one more dereference for 0x81); memory is unchanged; a failed read is returned |
| Machine.Computer.ADD | computer.py:80-87 | the same with AC := (AC + operand) mod 256, indirect for 0x82 |
| Machine.Computer.SUB | computer.py:89-96 | the same with AC := (AC − operand) mod 256, indirect for 0x83 |
| Machine.Computer.LDA | computer.py:98-104 | the same with AC := operand, indirect for 0x84 |
| Machine.Computer.STA | computer.py:106-112 | PC moves onto the operand word and AC is written at M[p+1] (at M[M[p+1]] for 0x88); registers other than PC are unchanged |
| Machine.Computer.BUN | computer.py:114-120 | PC becomes the target minus one (target M[p+1], or M[M[p+1]] for 0x90); AC and memory are unchanged |
| Machine.Computer.ISZ | computer.py:122-132 | M[a] for a = M[p+1] becomes (M[a] + 1) mod 256 and PC moves onto the operand word, then 2 further when that is 0; 0xA0 is not dereferenced again |
| Machine.Computer.CLA | computer.py:134-136 | AC becomes 0 and nothing else changes |
| Machine.Computer.CMA | computer.py:138-140 | AC becomes −AC − 1 and nothing else changes |
| Machine.Computer.Execute | computer.py:142-189 | dispatching on IR in the source's order does what `Isa.Execute` says: the instruction's effect, AttributeError for 0x44/0x48/0x50, and nothing for any other opcode |
| Machine.Computer.Step | computer.py:212-222 | one pass of the loop ends as one cycle of `Isa.Run`: halted on HLT with IR set, faulted, or running on with the executed state and PC + 1 |
| Machine.Computer.Run | computer.py:211-223 | the loop, cut off after `fuel` passes, ends halted, out of fuel or faulted exactly as `Isa.Run` says, in the state it gives |
| Properties.ExecuteKeepsIr | computer.py:142-189 | no instruction changes IR |
| Properties.CycleFetches | computer.py:214 | a cycle that gets past the fetch leaves M[PC] in IR; a PC outside −64..63 faults with IndexError |
| Properties.CycleExecutes | computer.py:211-223 | a cycle that does not fetch HLT executes the fetched word and adds one to PC |
| Properties.EncodeDecode | computer.py:142-189 | every assigned opcode is a byte, and encoding its decoded instruction gives the opcode back |
| Properties.ArithInstruction | computer.py:71-104 | AND/ADD/SUB/LDA at p use M[M[p+1]] (M[M[M[p+1]]] indirect), set AC to `&`, sum mod 256, difference mod 256 or the operand, leave memory alone, and the next fetch is at p + 2 |
| Properties.StaInstruction | computer.py:106-112 | STA at p writes AC at M[p+1] (M[M[p+1]] indirect), changes nothing else but PC and IR, and the next fetch is at p + 2 |
| Properties.StoreThenLoad | computer.py:98-112 | STA t followed by LDA t gives AC back, with t holding AC and the next fetch at p + 4 |
| Properties.BunInstruction | computer.py:114-120 | after BUN the machine is at the target with AC and memory unchanged |
| Properties.BunNextFetch | computer.py:114-120 | the cycle after a BUN to t fetches M[t] |
| Properties.IszInstruction | computer.py:122-132 | ISZ (0x20 and 0xA0 alike) stores (M[a] + 1) mod 256 at a = M[p+1]; the next fetch is at p + 4 when that is 0 and at p + 2 otherwise |
| Properties.IszExamples | computer.py:122-132 | a counter at 0xFF becomes 0x00 and the skip is taken; 0x05 becomes 0x06 without a skip |
| Properties.ClaCmaInstruction | computer.py:134-140 | CLA clears AC and CMA sets it to −AC − 1; each is one word long |
| Properties.HltStops | computer.py:214-219 | fetching HLT ends the run at once with memory, PC and AC as they were |
| Properties.MissingMethods | computer.py:179-189 | 0x44, 0x48 and 0x50 fail with AttributeError naming ASL, ASR and INC |
| Properties.UnassignedFallsThrough | computer.py:142-189 | any opcode outside the table only moves PC on by one |
| Properties.RunsOn | computer.py:211-223 | a cycle that runs on passes the remaining fuel to the next state |
| Properties.HaltIsFinal | computer.py:211-223 | once a run halts, more fuel gives the same result |
| Multiply.AccumulatedIsProduct | computer.py:80-87 | adding x into a byte accumulator k times gives k·x mod 256 |
| Multiply.LoopRuns | computer.py:211-223 | from the loop head with k of n additions done, the program halts after 3(n − k) + 1 more cycles with the product in AC and at M[19] |
| Multiply.Multiplies | computer.py:211-223 | started with registers at zero, the program halts after 3n + 2 cycles with x·n mod 256 in AC and at M[19] |

## Left out

- **Loading the program file** (computer.py:20-22): reading `program.txt`,
  dropping its header row and row labels, and parsing hexadecimal words
  is file I/O. The constructor takes the parsed image and requires 8 rows
  of 8 words. A malformed file is not modelled: rows of other lengths, and
  a word that is not hexadecimal, which makes the loader raise ValueError.
- **`pad` and `dump`** (computer.py:191-209): these write memory to a
  file. That is output formatting and I/O.
- **The top-level script** (computer.py:226-229) is not modelled.
- **The `debug` flag and its prints** have no effect on the state, so
  they are left out.
- **The unused `IR` parameter of `execute`** is dropped.
- Machine.Computer.Comp: has no contract of its own. Its meaning is
  stated by `Machine.Computer.CompMatchesTable`, for the opcode pairs
  `execute` passes to it.
- **`comp`'s opcodes** are compared as integers. The source compares with
  `int` of hexadecimal string literals, which is the same value.
- Machine.Computer.Add: the source reduces modulo `math.pow(2, 8)`, which
  is a float, so the sum `check(a) + check(b)` is first converted to a
  float. The model reduces the exact integer sum modulo 256. The two
  agree while |check(a) + check(b)| ≤ 2^53. Above that the conversion
  rounds and the source's byte can differ from the model's. Rounding is
  not modelled.
- Machine.Computer.Add: a sum beyond the float range (about 2^1024) makes
  the source raise OverflowError. The model returns a byte instead.
- Machine.Computer.Sub: the same float reduction as `add`, for the
  difference `check(a) - check(b)`: it agrees while
  |check(a) − check(b)| ≤ 2^53. Rounding is not modelled.
- Machine.Computer.Sub: the same OverflowError as `add` when the
  difference is beyond the float range. The model returns a byte instead.
- Machine.Computer.Run: the source loops until HLT and can run forever.
  The model runs at most `fuel` passes and reports `FuelExhausted` when
  they run out.
- Machine.Computer.Run: when a pass raises an exception, the contract
  gives the fault but not the registers and memory left behind. The
  Python program stops there.
- Machine.Computer.Step: same as `Run` when a pass faults.
- Machine.Computer.Execute: same as `Run` when a pass faults.
- Machine.Computer.AND and the other opcode methods: same as `Run` when
  a pass faults.
- **ASL, ASR and INC** are dispatched by `execute` but never defined in
  the class. They are modelled as the AttributeError that calling them
  raises. What they were meant to do is not modelled.

=== FILE: alu.dfy ===
/** The arithmetic under the machine: the helpers `bpad` and `check` (which
    `add` and `sub` build on), Python's `&` and `~` on integers, and the sign
    conversion `put` applies before a store. Words are 8 bits; values are unbounded integers, as
    in Python. */
module Alu {

  /** Python's `~x`: the bitwise complement of an unbounded two's-complement
      integer. It flips the sign and the lowest bit. */
  function Not(x: int): (r: int)
    ensures r < 0 <==> x >= 0
    ensures r % 2 != x % 2
  {
    -x - 1
  }

  function Pow2(n: nat): (p: nat)
    ensures p >= 1
  {
    if n == 0 then 1 else 2 * Pow2(n - 1)
  }

  lemma {:induction false} Pow2Monotone(m: nat, n: nat)
    requires m <= n
    ensures Pow2(m) <= Pow2(n)
  {
    if m < n {
      Pow2Monotone(m, n - 1);
    }
  }

  lemma Pow2Byte()
    ensures Pow2(7) == 128 && Pow2(8) == 256
  {
    assert Pow2(2) == 4;
    assert Pow2(4) == 16;
    assert Pow2(6) == 64;
  }

  lemma {:induction false} Pow2Factor(n: nat)
    requires n >= 8
    ensures Pow2(n) == 256 * Pow2(n - 8)
  {
    if n > 8 {
      Pow2Factor(n - 1);
    }
  }

  // ---------------------------------------------------------------------
  // Binary digit strings, as `check` handles them
  // ---------------------------------------------------------------------

  function Digit(b: int): char
    requires 0 <= b < 2
  {
    if b == 1 then '1' else '0'
  }

  function DigitValue(c: char): nat {
    if c == '1' then 1 else 0
  }

  predicate IsBinary(s: string) {
    forall i :: 0 <= i < |s| ==> s[i] == '0' || s[i] == '1'
  }

  /** The digits Python's `bin(v)[2:]` gives for v >= 0: most significant digit
      first, without leading zeros, and "0" for zero. */
  function Bits(v: nat): (s: string)
    ensures 1 <= |s| && IsBinary(s)
    ensures v > 0 ==> s[0] == '1'
  {
    if v < 2 then [Digit(v)] else Bits(v / 2) + [Digit(v % 2)]
  }

  /** Python's `bin(v)[2:]` for any integer: `bin(-5)` is "-0b101", so for a
      negative number the slice keeps the letter 'b' in front of the digits. */
  function BinTail(v: int): string {
    if v >= 0 then Bits(v) else "b" + Bits(-v)
  }

  /** Python's `"0" * n`, which is empty for n <= 0. */
  function Zeros(n: int): (z: string)
    ensures |z| == if n < 0 then 0 else n
    ensures forall i :: 0 <= i < |z| ==> z[i] == '0'
  {
    if n <= 0 then "" else "0" + Zeros(n - 1)
  }

  /** `bpad`: pads a digit string on the left with '0' up to eight characters;
      a longer string comes back unchanged. */
  function BPad(s: string): (r: string)
    ensures |r| == if |s| < 8 then 8 else |s|
    ensures r[|r| - |s|..] == s
    ensures forall i :: 0 <= i < |r| - |s| ==> r[i] == '0'
  {
    if |s| == 8 then s else Zeros(8 - |s|) + s
  }

  /** The list comprehension in `check` that turns every '1' into '0' and
      every other character into '1'. */
  function Flip(s: string): string {
    seq(|s|, i requires 0 <= i < |s| => if s[i] == '1' then '0' else '1')
  }

  /** Python's `int(s, 2)` on a string of binary digits. */
  function ParseBin(s: string): nat {
    if s == [] then 0 else 2 * ParseBin(s[..|s| - 1]) + DigitValue(s[|s| - 1])
  }

  lemma {:induction false} ParseBits(v: nat)
    ensures ParseBin(Bits(v)) == v
  {
    if v >= 2 {
      var p := Bits(v / 2);
      assert Bits(v)[..|Bits(v)| - 1] == p;
      ParseBits(v / 2);
    }
  }

  lemma {:induction false} ParseZeros(k: int)
    ensures ParseBin(Zeros(k)) == 0
  {
    if k > 0 {
      assert Zeros(k)[..k - 1] == Zeros(k - 1);
      ParseZeros(k - 1);
    }
  }

  lemma {:induction false} ParseLeadingZeros(k: int, s: string)
    ensures ParseBin(Zeros(k) + s) == ParseBin(s)
  {
    if s == [] {
      assert Zeros(k) + s == Zeros(k);
      ParseZeros(k);
    } else {
      var t := Zeros(k) + s;
      assert t[..|t| - 1] == Zeros(k) + s[..|s| - 1];
      ParseLeadingZeros(k, s[..|s| - 1]);
    }
  }

  /** Flipping every digit of an n-digit binary string gives 2^n - 1 minus its value. */
  lemma {:induction false} ParseFlip(s: string)
    requires IsBinary(s)
    ensures ParseBin(Flip(s)) == Pow2(|s|) - 1 - ParseBin(s)
  {
    if s != [] {
      var n := |s|;
      assert Flip(s)[..n - 1] == Flip(s[..n - 1]);
      ParseFlip(s[..n - 1]);
    }
  }

  lemma {:induction false} ParseBound(s: string)
    ensures ParseBin(s) < Pow2(|s|)
  {
    if s != [] {
      ParseBound(s[..|s| - 1]);
    }
  }

  /** The leading digit of an n-digit string carries weight 2^(n-1). */
  lemma {:induction false} ParseLeading(s: string)
    requires |s| >= 1
    ensures ParseBin(s) == DigitValue(s[0]) * Pow2(|s| - 1) + ParseBin(s[1..])
  {
    var n := |s|;
    if n > 1 {
      var front := s[..n - 1];
      ParseLeading(front);
      assert front[1..] == s[1..][..n - 2];
      assert front[0] == s[0];
      var d := DigitValue(s[0]);
      assert 2 * (d * Pow2(n - 2)) == d * Pow2(n - 1);
    }
  }

  /** The number of digits of `bin(v)` places v between consecutive powers of two. */
  lemma BitsLength(v: nat)
    ensures v < Pow2(|Bits(v)|)
    ensures v > 0 ==> Pow2(|Bits(v)| - 1) <= v
    ensures |Bits(v)| <= 8 <==> v < 256
  {
    var s := Bits(v);
    ParseBits(v);
    ParseBound(s);
    if v > 0 {
      ParseLeading(s);
    }
    Pow2Byte();
    if |s| <= 8 {
      Pow2Monotone(|s|, 8);
    } else {
      Pow2Monotone(8, |s| - 1);
    }
  }

  // ---------------------------------------------------------------------
  // check: the two's-complement reading of a word
  // ---------------------------------------------------------------------

  /** `check`: reads the eight-bit pattern of v as a two's-complement number.
      The source pads `bin(v)` to eight digits and, when the leading digit is 1,
      returns minus (the flipped digits plus one). */
  function Check(v: int): (r: int)
    ensures r < 0 || r == v
  {
    var padded := BPad(BinTail(v));
    if padded[0] == '1' then -(ParseBin(Flip(padded)) + 1) else v
  }

  /** `check` returns a negative number unchanged: the slice of `bin` starts
      with 'b' (or, padded, with '0'), never with '1'. */
  lemma CheckNegative(v: int)
    requires v < 0
    ensures Check(v) == v
  {
    var t := BinTail(v);
    var padded := BPad(t);
    if |t| < 8 {
      assert padded[0] == '0';
    } else {
      assert padded == t;
      assert padded[0] == 'b';
    }
  }

  /** On a byte, `check` keeps 0..127 and reads 128..255 as v - 256. */
  lemma CheckByteValue(v: int)
    requires 0 <= v < 256
    ensures v < 128 ==> Check(v) == v
    ensures v >= 128 ==> Check(v) == v - 256
  {
    var t := Bits(v);
    var padded := BPad(t);
    BitsLength(v);
    assert padded == Zeros(8 - |t|) + t;
    assert IsBinary(padded);
    assert ParseBin(padded) == v by {
      ParseLeadingZeros(8 - |t|, t);
      ParseBits(v);
    }
    ParseLeading(padded);
    ParseBound(padded[1..]);
    Pow2Byte();
    if v >= 128 {
      assert padded[0] == '1';
      ParseFlip(padded);
    } else {
      assert padded[0] != '1';
    }
  }

  /** A number of n > 8 binary digits has no padding, starts with '1', and
      `check` returns v - 2^n. */
  lemma CheckLarge(v: int)
    requires v >= 256
    ensures |Bits(v)| > 8 && Check(v) == v - Pow2(|Bits(v)|)
  {
    var t := Bits(v);
    BitsLength(v);
    assert BPad(t) == t;
    ParseBits(v);
    ParseFlip(t);
  }

  /** What `check` computes for every integer: negative numbers and numbers
      below 128 are returned unchanged, a byte from 128 to 255 is read as
      v - 256, and a number of n > 8 binary digits comes back as v - 2^n. */
  lemma CheckValue(v: int)
    ensures v < 128 ==> Check(v) == v
    ensures 128 <= v < 256 ==> Check(v) == v - 256
    ensures v >= 256 ==> |Bits(v)| > 8 && Check(v) == v - Pow2(|Bits(v)|)
  {
    if v < 0 {
      CheckNegative(v);
    } else if v < 256 {
      CheckByteValue(v);
    } else {
      CheckLarge(v);
    }
  }

  /** Adding a multiple of 256 does not change a value modulo 256. */
  lemma ModShift(z: int, t: int)
    ensures (z + 256 * t) % 256 == z % 256
  {
    var q, r := z / 256, z % 256;
    assert z + 256 * t == 256 * (q + t) + r;
  }

  /** Values congruent modulo 256 have congruent sums and differences. */
  lemma ModCongruent(x: int, y: int, a: int, b: int)
    requires x % 256 == a % 256 && y % 256 == b % 256
    ensures (x + y) % 256 == (a + b) % 256
    ensures (x - y) % 256 == (a - b) % 256
  {
    ModShift(x + y, a / 256 - x / 256 + b / 256 - y / 256);
    ModShift(x - y, a / 256 - x / 256 - b / 256 + y / 256);
  }

  /** `check` never changes a value modulo 256. */
  lemma CheckCongruent(v: int)
    ensures Check(v) % 256 == v % 256
  {
    if v < 0 {
      CheckNegative(v);
    } else if v < 256 {
      CheckByteValue(v);
      if v >= 128 {
        ModShift(v, -1);
      }
    } else {
      LargeCongruent(v);
    }
  }

  /** Subtracting a power of two of at least 2^8 keeps a value modulo 256. */
  lemma PowerShift(z: int, n: nat)
    requires n >= 8
    ensures (z - Pow2(n)) % 256 == z % 256
  {
    Pow2Factor(n);
    var k: int := Pow2(n - 8);
    ModShift(z, -k);
  }

  /** Above a byte, `check` subtracts a power of two of at least 2^9, a
      multiple of 256. */
  lemma LargeCongruent(v: int)
    requires v >= 256
    ensures Check(v) % 256 == v % 256
  {
    CheckLarge(v);
    PowerShift(v, |Bits(v)|);
  }

  /** On a byte, `check` is a two's-complement decoding: its result lies in
      [-128, 127], is negative exactly when the high bit is set, and reducing
      it modulo 256 gives the byte back. */
  lemma CheckByte(w: int)
    requires 0 <= w < 256
    ensures -128 <= Check(w) < 128
    ensures Check(w) < 0 <==> w >= 128
    ensures Check(w) % 256 == w
  {
    CheckByteValue(w);
    if w >= 128 {
      ModShift(w, -1);
    }
  }

  // ---------------------------------------------------------------------
  // Python's & on unbounded integers, and the sign conversion in put
  // ---------------------------------------------------------------------

  /** Python's `x & y`: bitwise and of two's-complement integers whose sign
      bit extends without end. 0 and -1 are the all-zeros and all-ones patterns;
      otherwise the lowest bits are combined and the rest is shifted right. */
  function BitAnd(x: int, y: int): (r: int)
    ensures r < 0 <==> x < 0 && y < 0
    decreases (if x < 0 then -x else x) + (if y < 0 then -y else y)
  {
    if x == 0 || y == 0 then 0
    else if x == -1 then y
    else if y == -1 then x
    else 2 * BitAnd(x / 2, y / 2) + (if x % 2 == 1 && y % 2 == 1 then 1 else 0)
  }

  /** One step of `&`: the lowest bits are combined and the rest is anded
      shifted right, also when an operand is 0 or -1. */
  lemma BitAndUnfold(x: int, y: int)
    ensures BitAnd(x, y) == 2 * BitAnd(x / 2, y / 2) + (if x % 2 == 1 && y % 2 == 1 then 1 else 0)
  {
    if x == 0 || y == 0 {
    } else if x == -1 {
      BitAndAllOnes(y / 2);
    } else if y == -1 {
      BitAndAllOnes(x / 2);
    }
  }

  /** -1 has every bit set: anding with it changes nothing. */
  lemma BitAndAllOnes(z: int)
    ensures BitAnd(-1, z) == z && BitAnd(z, -1) == z
  {
  }

  /** Bit i of x in two's complement, Python's `(x >> i) & 1`. */
  function Bit(x: int, i: nat): int
    decreases i
  {
    if i == 0 then x % 2 else Bit(x / 2, i - 1)
  }

  /** `&` works digit by digit: bit i of x & y is 1 exactly when bit i of
      both x and y is 1. */
  lemma {:induction false} BitAndBits(x: int, y: int, i: nat)
    ensures Bit(BitAnd(x, y), i) == if Bit(x, i) == 1 && Bit(y, i) == 1 then 1 else 0
    decreases i
  {
    var b := if x % 2 == 1 && y % 2 == 1 then 1 else 0;
    BitAndUnfold(x, y);
    Halve(BitAnd(x / 2, y / 2), b);
    if i > 0 {
      BitAndBits(x / 2, y / 2, i - 1);
    }
  }

  /** Appending the bit b to z, and taking it off again. */
  lemma Halve(z: int, b: int)
    requires b == 0 || b == 1
    ensures (2 * z + b) % 2 == b && (2 * z + b) / 2 == z
  {
  }

  /** And with a non-negative mask gives a value between 0 and the mask. */
  lemma {:induction false} BitAndRange(x: int, y: int)
    requires y >= 0
    ensures 0 <= BitAnd(x, y) <= y
    decreases y
  {
    if y != 0 {
      BitAndUnfold(x, y);
      BitAndRange(x / 2, y / 2);
    }
  }

  /** Numbers that agree modulo 2^k give the same result when anded with a
      k-bit mask: only the low k bits take part. */
  lemma {:induction false} BitAndLowBits(x: int, x': int, j: int, y: int, k: nat)
    requires x - x' == Pow2(k) * j
    requires 0 <= y < Pow2(k)
    ensures BitAnd(x, y) == BitAnd(x', y)
    decreases k
  {
    if y != 0 {
      var m := Pow2(k - 1);
      assert x - x' == 2 * (m * j);
      assert x % 2 == x' % 2;
      assert x / 2 - x' / 2 == m * j;
      BitAndUnfold(x, y);
      BitAndUnfold(x', y);
      BitAndLowBits(x / 2, x' / 2, j, y / 2, k - 1);
    }
  }

  /** When AC is anded with a byte, only AC's low eight bits take part. */
  lemma BitAndByte(x: int, y: int)
    requires 0 <= y < 256
    ensures BitAnd(x, y) == BitAnd(x % 256, y)
    ensures 0 <= BitAnd(x, y) <= y
  {
    Pow2Byte();
    BitAndLowBits(x, x % 256, x / 256, y, 8);
    BitAndRange(x, y);
  }

  /** The negative branch of `put`, `(~(-1 * value)) + 1`, applied to negative
      values only: it is the identity, so the stored value is the value given. */
  function StoreForm(value: int): (r: int)
    ensures r == value
  {
    if value < 0 then Not(-1 * value) + 1 else value
  }

  /** `~` on a byte: a negative number whose low eight bits are the flipped
      byte; applying it twice gives the byte back. */
  lemma NotByte(x: int)
    requires 0 <= x < 256
    ensures -256 <= Not(x) < 0
    ensures Not(x) % 256 == 255 - x
    ensures Not(Not(x)) == x
  {
  }
}

=== FILE: computer.dfy ===
/** The `Computer` class: registers PC, AC and IR, and memory as eight rows of
    eight words that `put` updates in place. The methods that change the
    machine are proved to do what the pure semantics in isa.dfy says of its
    state, read through View(), whenever that semantics succeeds. */
module Machine {
  import opened Outcomes
  import Alu
  import Isa

  /** How a bounded run of the fetch-execute loop ends. */
  datatype Stop = HaltedOnHlt | FuelExhausted | Faulted(fault: Isa.Fault)

  class Computer {
    var PC: int  // program counter
    var AC: int  // accumulator
    var IR: int  // instruction register
    const memory: array2<int>

    ghost predicate Valid() {
      memory.Length0 == 8 && memory.Length1 == 8
    }

    /** Memory read row by row: cell 8 * row + col is memory[row, col]. */
    ghost function Cells(): (m: seq<int>)
      requires Valid()
      reads memory
      ensures |m| == 64
      ensures forall a :: 0 <= a < 64 ==> m[a] == memory[a / 8, a % 8]
    {
      seq(64, a requires 0 <= a < 64 reads memory => memory[a / 8, a % 8])
    }

    ghost function View(): (s: Isa.State)
      requires Valid()
      reads this, memory
    {
      Isa.State(Cells(), PC, AC, IR)
    }

    /** The constructor with the image already parsed: eight rows of eight
        words become a fresh memory, and all registers start at zero. */
    constructor (image: seq<seq<int>>)
      requires |image| == 8 && forall r :: 0 <= r < 8 ==> |image[r]| == 8
      ensures Valid() && fresh(memory)
      ensures View() == Isa.Load(image)
    {
      PC, AC, IR := 0, 0, 0;
      memory := new int[8, 8]((row, col) requires 0 <= row < 8 && 0 <= col < 8 => image[row][col]);
      new;
      assert Cells() == Isa.Load(image).mem;
    }

    /** `get`: row address // 8, column address % 8 (Dafny's / and % agree
        with Python's // and % for the divisor 8). A negative row counts from
        the end of the list; a row outside -8..7 raises IndexError. */
    method Get(address: int) returns (r: Result<int, Isa.Fault>)
      requires Valid()
      ensures r == Isa.Read(Cells(), address)
    {
      var row := address / 8;
      var col := address % 8;
      if row < -8 || 8 <= row {
        return Err(Isa.IndexError);
      }
      r := Ok(memory[if row < 0 then row + 8 else row, col]);
    }

    /** `getValue`: the word at the address held at `address`. */
    method GetValue(address: int) returns (r: Result<int, Isa.Fault>)
      requires Valid()
      ensures r == Isa.ReadValue(Cells(), address)
    {
      var value :- Get(address);
      r := Get(value);
    }

    /** `put`: a negative value passes through `(~(-1 * value)) + 1`, which
        gives it back unchanged, and is stored at the cell `get` reads. */
    method Put(address: int, value: int) returns (r: Result<(), Isa.Fault>)
      requires Valid()
      modifies memory
      ensures match Isa.Write(old(Cells()), address, value)
              case Ok(m) => r.Ok? && Cells() == m
              case Err(f) => r == Err(f) && Cells() == old(Cells())
    {
      var row := address / 8;
      var col := address % 8;
      var v := Alu.StoreForm(value);
      if row < -8 || 8 <= row {
        return Err(Isa.IndexError);
      }
      memory[if row < 0 then row + 8 else row, col] := v;
      r := Ok(());
      assert Cells() == old(Cells())[address % 64 := value];
    }

    /** `comp`: whether IR holds the first opcode or, when one is given, the
        second. The source compares against hexadecimal string literals;
        here they are integer constants. */
    function Comp(value1: int, value2: Option<int>): bool
      reads this
    {
      IR == value1 || (value2.Some? && IR == value2.value)
    }

    /** The opcodes `execute` hands to `comp` are the rows of the decode
        table: a memory-reference instruction's direct opcode and that
        opcode plus 0x80 match IR exactly when IR decodes to the
        instruction in one of its two forms, and a register or halt
        opcode matches exactly when IR decodes to that instruction. */
    lemma CompMatchesTable(i: Isa.Instr)
      requires !i.Unassigned?
      ensures (i.Arith? || i.Sta? || i.Bun? || i.Isz?) && !i.indirect ==>
                (Comp(Isa.Encode(i), Some(Isa.Encode(i) + 0x80))
                 <==> Isa.Decode(IR) == i || Isa.Decode(IR) == i.(indirect := true))
      ensures !(i.Arith? || i.Sta? || i.Bun? || i.Isz?) ==>
                (Comp(Isa.Encode(i), None) <==> Isa.Decode(IR) == i)
    {
    }

    /** `add`: the two's-complement readings of a and b (`check`) summed and
        reduced modulo 256. The result is the byte congruent to a + b, so
        overflow wraps. */
    method Add(a: int, b: int) returns (r: int)
      ensures 0 <= r < 256
      ensures r == (a + b) % 256
    {
      var x := Alu.Check(a);
      var y := Alu.Check(b);
      Alu.CheckCongruent(a);
      Alu.CheckCongruent(b);
      Alu.ModCongruent(x, y, a, b);
      r := (x + y) % 256;
    }

    /** `sub`: the same with the difference; the byte congruent to a - b. */
    method Sub(a: int, b: int) returns (r: int)
      ensures 0 <= r < 256
      ensures r == (a - b) % 256
    {
      var x := Alu.Check(a);
      var y := Alu.Check(b);
      Alu.CheckCongruent(a);
      Alu.CheckCongruent(b);
      Alu.ModCongruent(x, y, a, b);
      r := (x - y) % 256;
    }

    /** The method finished as `expected` says: with the state it gives, or
        with the same fault. */
    ghost predicate Completes(r: Result<(), Isa.Fault>, expected: Result<Isa.State, Isa.Fault>)
      requires Valid()
      reads this, memory
    {
      match expected
      case Ok(t) => r.Ok? && View() == t
      case Err(f) => r == Err(f)
    }

    method AND() returns (r: Result<(), Isa.Fault>)
      requires Valid()
      modifies this
      ensures Completes(r, Isa.ArithStep(old(View()), Isa.AndOp, old(IR) == 0x81))
    {
      ghost var s := View();
      PC := PC + 1;
      var value :- GetValue(PC);
      if Comp(0x81, None) {
        value :- Get(value);  // indirect value
      }
      assert Isa.Operand(s, s.ir == 0x81) == Ok(value);
      AC := Alu.BitAnd(AC, value);
      r := Ok(());
    }

    method ADD() returns (r: Result<(), Isa.Fault>)
      requires Valid()
      modifies this
      ensures Completes(r, Isa.ArithStep(old(View()), Isa.AddOp, old(IR) == 0x82))
    {
      ghost var s := View();
      PC := PC + 1;
      var value :- GetValue(PC);
      if Comp(0x82, None) {
        value :- Get(value);  // indirect value
      }
      assert Isa.Operand(s, s.ir == 0x82) == Ok(value);
      AC := Add(AC, value);
      assert AC == Isa.Apply(Isa.AddOp, s.ac, value);
      r := Ok(());
    }

    method SUB() returns (r: Result<(), Isa.Fault>)
      requires Valid()
      modifies this
      ensures Completes(r, Isa.ArithStep(old(View()), Isa.SubOp, old(IR) == 0x83))
    {
      ghost var s := View();
      PC := PC + 1;
      var value :- GetValue(PC);
      if Comp(0x83, None) {
        value :- Get(value);  // indirect value
      }
      assert Isa.Operand(s, s.ir == 0x83) == Ok(value);
      AC := Sub(AC, value);
      assert AC == Isa.Apply(Isa.SubOp, s.ac, value);
      r := Ok(());
    }

    method LDA() returns (r: Result<(), Isa.Fault>)
      requires Valid()
      modifies this
      ensures Completes(r, Isa.ArithStep(old(View()), Isa.LdaOp, old(IR) == 0x84))
    {
      ghost var s := View();
      PC := PC + 1;
      var value :- GetValue(PC);
      if Comp(0x84, None) {
        value :- Get(value);
      }
      assert Isa.Operand(s, s.ir == 0x84) == Ok(value);
      AC := value;
      r := Ok(());
    }

    method STA() returns (r: Result<(), Isa.Fault>)
      requires Valid()
      modifies this, memory
      ensures Completes(r, Isa.StaStep(old(View()), old(IR) == 0x88))
    {
      PC := PC + 1;
      var value :- Get(PC);
      if Comp(0x88, None) {
        value :- Get(value);
      }
      r := Put(value, AC);
    }

    method BUN() returns (r: Result<(), Isa.Fault>)
      requires Valid()
      modifies this
      ensures Completes(r, Isa.BunStep(old(View()), old(IR) == 0x90))
    {
      PC := PC + 1;
      var value :- Get(PC);
      if Comp(0x90, None) {
        value :- Get(value);
      }
      PC := value - 1;  // the run loop adds one
      r := Ok(());
    }

    method ISZ() returns (r: Result<(), Isa.Fault>)
      requires Valid()
      modifies this, memory
      ensures Completes(r, Isa.IszStep(old(View())))
    {
      ghost var s := View();
      PC := PC + 1;
      var address :- Get(PC);
      var value :- Get(address);
      assert Isa.Read(s.mem, s.pc + 1) == Ok(address) && Isa.Read(s.mem, address) == Ok(value);
      var res := Add(1, value);
      assert -64 <= address < 64;
      ghost var m := s.mem[address % 64 := res];
      assert Isa.Write(s.mem, address, res) == Ok(m);
      r := Put(address, res);
      assert r.Ok? && Cells() == m;
      if res == 0 {
        PC := PC + 2;
      }
      assert Isa.IszStep(s) == Ok(s.(mem := m, pc := PC));
    }

    method CLA()
      requires Valid()
      modifies this
      ensures View() == old(View()).(ac := 0)
    {
      AC := 0;
    }

    method CMA()
      requires Valid()
      modifies this
      ensures View() == old(View()).(ac := Alu.Not(old(AC)))
    {
      AC := Alu.Not(AC);
    }

    /** `execute`: tests IR against each opcode pair in the source's order.
        ASL, ASR and INC are called in the source but never defined, so
        reaching them is an AttributeError; any other opcode does nothing. */
    method Execute() returns (r: Result<(), Isa.Fault>)
      requires Valid()
      modifies this, memory
      ensures Completes(r, Isa.Execute(old(View())))
    {
      if Comp(0x01, Some(0x81)) {
        r := AND();
      } else if Comp(0x02, Some(0x82)) {
        r := ADD();
      } else if Comp(0x03, Some(0x83)) {
        r := SUB();
      } else if Comp(0x04, Some(0x84)) {
        r := LDA();
      } else if Comp(0x08, Some(0x88)) {
        r := STA();
      } else if Comp(0x10, Some(0x90)) {
        r := BUN();
      } else if Comp(0x20, Some(0xA0)) {
        r := ISZ();
      } else if Comp(0x41, None) {
        CLA();
        r := Ok(());
      } else if Comp(0x42, None) {
        CMA();
        r := Ok(());
      } else if Comp(0x44, None) {
        r := Err(Isa.AttributeError("ASL"));
      } else if Comp(0x48, None) {
        r := Err(Isa.AttributeError("ASR"));
      } else if Comp(0x50, None) {
        r := Err(Isa.AttributeError("INC"));
      } else {
        r := Ok(());
      }
    }

    /** One pass of `run`'s loop: fetch into IR, stop on HLT (answering
        true), otherwise execute and add one to PC (answering false). */
    method Step() returns (r: Result<bool, Isa.Fault>)
      requires Valid()
      modifies this, memory
      ensures match Isa.Run(old(View()), 1)
              case Timeout(t) => r == Ok(false) && View() == t
              case Halt(t) => r == Ok(true) && View() == t
              case Crash(f) => r == Err(f)
    {
      var ir :- Get(PC);
      IR := ir;
      if Comp(0x60, None) {
        return Ok(true);  // program ends
      }
      var done := Execute();
      if done.Err? {
        return Err(done.error);
      }
      PC := PC + 1;
      r := Ok(false);
    }

    /** `run`: the fetch-execute loop, here cut off after `fuel` passes. */
    method Run(fuel: nat) returns (stop: Stop)
      requires Valid()
      modifies this, memory
      ensures match Isa.Run(old(View()), fuel)
              case Halt(t) => stop == HaltedOnHlt && View() == t
              case Timeout(t) => stop == FuelExhausted && View() == t
              case Crash(f) => stop == Faulted(f)
    {
      ghost var start := View();
      var remaining := fuel;
      while remaining > 0
        invariant Isa.Run(start, fuel) == Isa.Run(View(), remaining)
        decreases remaining
      {
        ghost var before := View();
        Isa.RunSplit(before, 1, remaining - 1);
        var step := Step();
        if step.Err? {
          return Faulted(step.error);
        }
        if step.value {
          return HaltedOnHlt;
        }
        remaining := remaining - 1;
      }
      stop := FuelExhausted;
    }
  }
}

=== FILE: isa.dfy ===
/** The machine as a pure state transition: memory addressing, operand
    resolution for the direct and indirect forms, the opcode table, one
    instruction, one cycle of the fetch-execute loop, and a run bounded by a
    number of cycles. The class in computer.dfy is proved to follow these
    definitions step for step. */
module Isa {
  import opened Outcomes
  import Alu

  /** The opcode that stops the fetch-execute loop. */
  const HLT := 0x60

  datatype Fault =
    | IndexError                    // an address outside the list of eight rows of eight
    | AttributeError(name: string)  // dispatch to a method the class never defines

  /** The 64 words of memory, row by row: address 8 * row + col. Words are
      unbounded integers: the source never reduces what it stores. */
  type Memory = m: seq<int> | |m| == 64 witness seq(64, a => 0)

  /** Memory, program counter, accumulator and instruction register. */
  datatype State = State(mem: Memory, pc: int, ac: int, ir: int)

  /** The rows of the memory image laid end to end. */
  function Flatten(rows: seq<seq<int>>): seq<int> {
    if rows == [] then [] else rows[0] + Flatten(rows[1..])
  }

  lemma {:induction false} FlattenAt(rows: seq<seq<int>>)
    requires forall r :: 0 <= r < |rows| ==> |rows[r]| == 8
    ensures |Flatten(rows)| == 8 * |rows|
    ensures forall a :: 0 <= a < 8 * |rows| ==> Flatten(rows)[a] == rows[a / 8][a % 8]
  {
    if rows != [] {
      FlattenAt(rows[1..]);
      forall a | 8 <= a < 8 * |rows|
        ensures Flatten(rows)[a] == rows[a / 8][a % 8]
      {
        assert Flatten(rows)[a] == Flatten(rows[1..])[a - 8];
        assert (a - 8) / 8 + 1 == a / 8 && (a - 8) % 8 == a % 8;
      }
    }
  }

  /** The machine as the constructor leaves it: registers zero and the image,
      eight rows of eight, as memory; cell 8 * row + col holds image[row][col]. */
  function Load(image: seq<seq<int>>): (s: State)
    requires |image| == 8 && forall r :: 0 <= r < 8 ==> |image[r]| == 8
    ensures s.pc == 0 && s.ac == 0 && s.ir == 0
    ensures forall a :: 0 <= a < 64 ==> s.mem[a] == image[a / 8][a % 8]
  {
    FlattenAt(image);
    State(Flatten(image), 0, 0, 0)
  }

  // ---------------------------------------------------------------------
  // Memory
  // ---------------------------------------------------------------------

  /** `get`: the cell that row a // 8, column a % 8 of a Python list of eight
      rows reaches. Rows -8..-1 count from the end, so addresses -64..-1 wrap
      to a + 64; any other address outside 0..63 raises IndexError. */
  function Read(mem: Memory, a: int): (r: Result<int, Fault>)
    ensures 0 <= a < 64 ==> r == Ok(mem[a])
    ensures -64 <= a < 0 ==> r == Ok(mem[a + 64])
    ensures a < -64 || 64 <= a ==> r == Err(IndexError)
  {
    if -64 <= a < 64 then Ok(mem[a % 64]) else Err(IndexError)
  }

  /** `getValue`: the cell whose address is held in cell a. */
  function ReadValue(mem: Memory, a: int): (r: Result<int, Fault>)
    ensures r.Ok? <==> -64 <= a < 64 && -64 <= mem[a % 64] < 64
    ensures 0 <= a < 64 && 0 <= mem[a] < 64 ==> r == Ok(mem[mem[a]])
    ensures r.Err? ==> r.error == IndexError
  {
    var p :- Read(mem, a);
    Read(mem, p)
  }

  /** `put`: stores v, unchanged, in the cell `get` would read for address a. */
  function Write(mem: Memory, a: int, v: int): (r: Result<Memory, Fault>)
    ensures r.Ok? <==> -64 <= a < 64
    ensures r.Ok? ==> Read(r.value, a) == Ok(v)
    ensures r.Ok? ==> forall b :: 0 <= b < 64 && b != a % 64 ==> r.value[b] == mem[b]
  {
    if -64 <= a < 64 then Ok(mem[a % 64 := v]) else Err(IndexError)
  }

  // ---------------------------------------------------------------------
  // Operands: the word after the opcode, dereferenced
  // ---------------------------------------------------------------------

  /** The value AND, ADD, SUB and LDA use: the cell addressed by the word
      after the opcode (two reads), read once more as an address in the
      indirect form. */
  function Operand(s: State, indirect: bool): (r: Result<int, Fault>)
    ensures 0 <= s.pc + 1 < 64 && 0 <= s.mem[s.pc + 1] < 64 ==>
              var v := s.mem[s.mem[s.pc + 1]];
              if indirect then 0 <= v < 64 ==> r == Ok(s.mem[v]) else r == Ok(v)
    ensures r.Err? ==> r.error == IndexError
  {
    var v :- ReadValue(s.mem, s.pc + 1);
    if indirect then Read(s.mem, v) else Ok(v)
  }

  /** The address STA and BUN use: the word after the opcode, read once
      more as an address in the indirect form. */
  function Target(s: State, indirect: bool): (r: Result<int, Fault>)
    ensures 0 <= s.pc + 1 < 64 ==>
              var t := s.mem[s.pc + 1];
              if indirect then 0 <= t < 64 ==> r == Ok(s.mem[t]) else r == Ok(t)
    ensures r.Err? ==> r.error == IndexError
  {
    var t :- Read(s.mem, s.pc + 1);
    if indirect then Read(s.mem, t) else Ok(t)
  }

  // ---------------------------------------------------------------------
  // The instructions. Each leaves PC one short of where the next fetch
  // happens: the loop adds one after every instruction.
  // ---------------------------------------------------------------------

  datatype ArithOp = AndOp | AddOp | SubOp | LdaOp

  /** The new accumulator of AND (Python `&`), ADD, SUB and LDA. For ADD
      and SUB this is the byte that `add` and `sub` are proved to return
      (the class methods Add and Sub in computer.dfy). */
  function Apply(op: ArithOp, ac: int, v: int): int {
    match op
    case AndOp => Alu.BitAnd(ac, v)
    case AddOp => (ac + v) % 256
    case SubOp => (ac - v) % 256
    case LdaOp => v
  }

  /** AND, ADD, SUB, LDA: PC steps onto the operand word and AC takes the
      result; memory is untouched. */
  function ArithStep(s: State, op: ArithOp, indirect: bool): (r: Result<State, Fault>)
    ensures r.Ok? ==> r.value.mem == s.mem && r.value.ir == s.ir && r.value.pc == s.pc + 1
    ensures r.Ok? && (op == AddOp || op == SubOp) ==> 0 <= r.value.ac < 256
    ensures r.Ok? && op == AndOp && s.ac >= 0 ==> r.value.ac >= 0
    ensures r.Err? ==> r.error == IndexError
  {
    var v :- Operand(s, indirect);
    Ok(s.(pc := s.pc + 1, ac := Apply(op, s.ac, v)))
  }

  /** STA: PC steps onto the operand word and AC is stored at the target. */
  function StaStep(s: State, indirect: bool): (r: Result<State, Fault>)
    ensures r.Ok? ==> r.value.ac == s.ac && r.value.ir == s.ir && r.value.pc == s.pc + 1
    ensures r.Ok? ==> forall a :: 0 <= a < 64 && r.value.mem[a] != s.mem[a] ==> r.value.mem[a] == s.ac
    ensures r.Err? ==> r.error == IndexError
  {
    var t :- Target(s, indirect);
    var m :- Write(s.mem, t, s.ac);
    Ok(s.(pc := s.pc + 1, mem := m))
  }

  /** BUN: PC becomes the target minus one, so that the loop's increment
      lands on the target. */
  function BunStep(s: State, indirect: bool): (r: Result<State, Fault>)
    ensures r.Ok? ==> r.value.mem == s.mem && r.value.ac == s.ac && r.value.ir == s.ir
    ensures !indirect && -64 <= s.pc + 1 < 64 ==> r.Ok?
    ensures r.Err? ==> r.error == IndexError
  {
    var t :- Target(s, indirect);
    Ok(s.(pc := t - 1))
  }

  /** ISZ: the cell addressed by the operand word becomes `add(1, cell)`,
      that is (cell + 1) mod 256; PC
      steps onto the operand word and two further when that sum is zero.
      There is no indirect form: the address is never dereferenced again. */
  function IszStep(s: State): (r: Result<State, Fault>)
    ensures r.Ok? ==> r.value.ac == s.ac && r.value.ir == s.ir
    ensures r.Ok? ==> r.value.pc == s.pc + 1 || r.value.pc == s.pc + 3
    ensures r.Ok? ==> forall a :: 0 <= a < 64 && r.value.mem[a] != s.mem[a] ==>
              0 <= r.value.mem[a] < 256 && (r.value.mem[a] == 0 <==> r.value.pc == s.pc + 3)
    ensures r.Err? ==> r.error == IndexError
  {
    var a :- Read(s.mem, s.pc + 1);
    var v :- Read(s.mem, a);
    var sum := (1 + v) % 256;
    // the read of address a succeeded, so the write to it cannot fail
    var m := Write(s.mem, a, sum).value;
    Ok(s.(mem := m, pc := if sum == 0 then s.pc + 3 else s.pc + 1))
  }

  // ---------------------------------------------------------------------
  // The opcode table
  // ---------------------------------------------------------------------

  datatype Instr =
    | Arith(op: ArithOp, indirect: bool)
    | Sta(indirect: bool)
    | Bun(indirect: bool)
    | Isz(indirect: bool)
    | Cla
    | Cma
    | Hlt
    | Asl
    | Asr
    | Inc
    | Unassigned

  /** The instruction an 8-bit opcode names; the indirect forms carry the
      0x80 bit. Every other value is unassigned. */
  function Decode(ir: int): (i: Instr)
    ensures !i.Unassigned? ==> 0 < ir < 256
    ensures i.Arith? || i.Sta? || i.Bun? || i.Isz? ==> (i.indirect <==> ir >= 0x80)
  {
    match ir
    case 0x01 => Arith(AndOp, false)
    case 0x81 => Arith(AndOp, true)
    case 0x02 => Arith(AddOp, false)
    case 0x82 => Arith(AddOp, true)
    case 0x03 => Arith(SubOp, false)
    case 0x83 => Arith(SubOp, true)
    case 0x04 => Arith(LdaOp, false)
    case 0x84 => Arith(LdaOp, true)
    case 0x08 => Sta(false)
    case 0x88 => Sta(true)
    case 0x10 => Bun(false)
    case 0x90 => Bun(true)
    case 0x20 => Isz(false)
    case 0xA0 => Isz(true)
    case 0x41 => Cla
    case 0x42 => Cma
    case 0x60 => Hlt
    case 0x44 => Asl
    case 0x48 => Asr
    case 0x50 => Inc
    case _ => Unassigned
  }

  /** The opcode of an instruction: the direct code, plus 0x80 for the
      indirect form. */
  function Encode(i: Instr): (ir: int)
    requires !i.Unassigned?
    ensures 0 < ir < 256
    ensures Decode(ir) == i
  {
    match i
    case Arith(op, ind) =>
      (match op case AndOp => 0x01 case AddOp => 0x02 case SubOp => 0x03 case LdaOp => 0x04)
      + (if ind then 0x80 else 0)
    case Sta(ind) => if ind then 0x88 else 0x08
    case Bun(ind) => if ind then 0x90 else 0x10
    case Isz(ind) => if ind then 0xA0 else 0x20
    case Cla => 0x41
    case Cma => 0x42
    case Hlt => 0x60
    case Asl => 0x44
    case Asr => 0x48
    case Inc => 0x50
  }

  /** `execute`: the effect of the instruction in IR. HLT and unassigned
      opcodes change nothing; ASL, ASR and INC name methods the class does
      not have, which is an AttributeError. */
  function Execute(s: State): (r: Result<State, Fault>)
    ensures r.Ok? ==> r.value.ir == s.ir
    ensures r.Err? ==> r.error == IndexError || r.error.AttributeError?
    ensures Decode(s.ir).Hlt? || Decode(s.ir).Unassigned? ==> r == Ok(s)
  {
    match Decode(s.ir)
    case Arith(op, ind) => ArithStep(s, op, ind)
    case Sta(ind) => StaStep(s, ind)
    case Bun(ind) => BunStep(s, ind)
    case Isz(_) => IszStep(s)
    case Cla => Ok(s.(ac := 0))
    case Cma => Ok(s.(ac := Alu.Not(s.ac)))
    case Asl => Err(AttributeError("ASL"))
    case Asr => Err(AttributeError("ASR"))
    case Inc => Err(AttributeError("INC"))
    case Hlt => Ok(s)
    case Unassigned => Ok(s)
  }

  // ---------------------------------------------------------------------
  // The fetch-execute loop
  // ---------------------------------------------------------------------

  datatype Status = Running(next: State) | Halted(final: State)

  /** One pass of `run`'s loop: fetch the word at PC into IR; stop on HLT,
      otherwise execute it and add one to PC. */
  function Cycle(s: State): (r: Result<Status, Fault>)
    ensures r.Ok? && r.value.Halted? ==> r.value.final == s.(ir := HLT)
    ensures r.Err? ==> r.error == IndexError || r.error.AttributeError?
  {
    var ir :- Read(s.mem, s.pc);
    var fetched := s.(ir := ir);
    if ir == HLT then
      Ok(Halted(fetched))
    else
      var done :- Execute(fetched);
      Ok(Running(done.(pc := done.pc + 1)))
  }

  datatype RunResult = Halt(final: State) | Timeout(last: State) | Crash(fault: Fault)

  /** At most `fuel` steps of `step` from s: stops at the first fault or halt. */
  function Iterate(step: State -> Result<Status, Fault>, s: State, fuel: nat): RunResult
    decreases fuel
  {
    if fuel == 0 then
      Timeout(s)
    else
      match step(s)
      case Err(f) => Crash(f)
      case Ok(Halted(t)) => Halt(t)
      case Ok(Running(t)) => Iterate(step, t, fuel - 1)
  }

  /** `run` cut off after `fuel` cycles: the source loops until HLT and may
      never stop. */
  function Run(s: State, fuel: nat): (r: RunResult)
    ensures fuel == 0 ==> r == Timeout(s)
    ensures r.Halt? ==> r.final.ir == HLT
    ensures r.Crash? ==> r.fault == IndexError || r.fault.AttributeError?
  {
    IterateEnds(Cycle, s, fuel);
    Iterate(Cycle, s, fuel)
  }

  /** A run stops the way its steps do: if every halting step leaves HLT in
      IR and every failing step raises IndexError or AttributeError, so does
      a run of any length. */
  lemma {:induction false} IterateEnds(step: State -> Result<Status, Fault>, s: State, fuel: nat)
    requires forall t :: step(t).Ok? && step(t).value.Halted? ==> step(t).value.final.ir == HLT
    requires forall t :: step(t).Err? ==> step(t).error == IndexError || step(t).error.AttributeError?
    ensures Iterate(step, s, fuel).Halt? ==> Iterate(step, s, fuel).final.ir == HLT
    ensures Iterate(step, s, fuel).Crash? ==>
              Iterate(step, s, fuel).fault == IndexError || Iterate(step, s, fuel).fault.AttributeError?
    decreases fuel
  {
    if fuel > 0 {
      var c := step(s);
      if c.Ok? && c.value.Running? {
        IterateEnds(step, c.value.next, fuel - 1);
      }
    }
  }

  /** Running m + n steps is running m steps and, if those ran out of fuel,
      n more from where they stopped. */
  lemma {:induction false} IterateSplit(step: State -> Result<Status, Fault>, s: State, m: nat, n: nat)
    ensures Iterate(step, s, m + n) ==
            match Iterate(step, s, m) case Timeout(t) => Iterate(step, t, n) case other => other
    decreases m
  {
    if m > 0 {
      var c := step(s);
      if c.Ok? && c.value.Running? {
        IterateSplit(step, c.value.next, m - 1, n);
      }
    }
  }

  lemma RunSplit(s: State, m: nat, n: nat)
    ensures Run(s, m + n) == match Run(s, m) case Timeout(t) => Run(t, n) case other => other
  {
    IterateSplit(Cycle, s, m, n);
  }
}

=== FILE: multiply.dfy ===
/** A program for the machine that multiplies by repeated addition, and the
    proof that it computes the product modulo 256 for every multiplicand and
    every count from 1 to 256. */
module Multiply {
  import opened Isa
  import Alu
  import Properties

  /** The word at address a: the program at 0..9, the multiplicand x at 16
      and the loop counter at 17; the product is stored at 19. */
  function Word(x: int, counter: int, a: int): int {
    match a
    case 0 => 0x41  // CLA
    case 1 => 0x02  // ADD 0x10
    case 2 => 0x10
    case 3 => 0x20  // ISZ 0x11
    case 4 => 0x11
    case 5 => 0x10  // BUN 0x01
    case 6 => 0x01
    case 7 => 0x08  // STA 0x13
    case 8 => 0x13
    case 9 => 0x60  // HLT
    case 16 => x
    case 17 => counter
    case _ => 0
  }

  /** Memory holding the program. The counter starts at the count n negated
      (256 - n) and ISZ brings it up to zero, skipping the branch back on
      the last pass. */
  function Program(x: int, counter: int): Memory {
    seq(64, a => Word(x, counter, a))
  }

  /** AC after k passes of the loop: x added k times in a byte. */
  function Accumulated(x: int, k: nat): int {
    if k == 0 then 0 else (Accumulated(x, k - 1) + x) % 256
  }

  /** Adding x k times with wrap-around gives k * x modulo 256. */
  lemma {:induction false} AccumulatedIsProduct(x: int, k: nat)
    ensures Accumulated(x, k) == (k * x) % 256
  {
    if k > 0 {
      AccumulatedIsProduct(x, k - 1);
      var q := ((k - 1) * x) / 256;
      assert ((k - 1) * x) % 256 + x == k * x + 256 * (-q);
      Alu.ModShift(k * x, -q);
    }
  }

  /** The ADD at address 1 adds the multiplicand into AC. */
  lemma AddCycle(x: int, c: int, s: State, fuel: nat)
    requires s.pc == 1 && s.mem == Program(x, c)
    ensures Run(s, fuel + 1) == Run(State(s.mem, 3, (s.ac + x) % 256, 0x02), fuel)
  {
    Properties.ArithInstruction(s, AddOp, false);
    Properties.RunsOn(s, State(s.mem, 3, (s.ac + x) % 256, 0x02), fuel);
  }

  /** The ISZ at address 3 counts up and, short of zero, goes on to the BUN
      at address 5. */
  lemma IszCounts(x: int, c: int, s: State, fuel: nat)
    requires 0 <= c < 255
    requires s.pc == 3 && s.mem == Program(x, c)
    ensures Run(s, fuel + 1) == Run(State(Program(x, c + 1), 5, s.ac, 0x20), fuel)
  {
    Properties.IszInstruction(s);
    assert s.mem[17 := c + 1] == Program(x, c + 1);
    Properties.RunsOn(s, State(Program(x, c + 1), 5, s.ac, 0x20), fuel);
  }

  /** The ISZ at address 3 brings the counter from 255 to zero and skips to
      the STA at address 7. */
  lemma IszSkips(x: int, s: State, fuel: nat)
    requires s.pc == 3 && s.mem == Program(x, 255)
    ensures Run(s, fuel + 1) == Run(State(Program(x, 0), 7, s.ac, 0x20), fuel)
  {
    Properties.IszInstruction(s);
    assert s.mem[17 := 0] == Program(x, 0);
    Properties.RunsOn(s, State(Program(x, 0), 7, s.ac, 0x20), fuel);
  }

  /** The BUN at address 5 goes back to the ADD at 1. */
  lemma BunCycle(x: int, c: int, s: State, fuel: nat)
    requires s.pc == 5 && s.mem == Program(x, c)
    ensures Run(s, fuel + 1) == Run(State(s.mem, 1, s.ac, 0x10), fuel)
  {
    Properties.BunInstruction(s, false);
    Properties.RunsOn(s, State(s.mem, 1, s.ac, 0x10), fuel);
  }

  /** The STA at address 7 stores AC at 19, and the HLT at 9 stops. */
  lemma StoreAndHalt(x: int, s: State)
    requires s.pc == 7 && s.mem == Program(x, 0)
    ensures Run(s, 2) == Halt(State(s.mem[19 := s.ac], 9, s.ac, 0x60))
  {
    Properties.StaInstruction(s, false);
    var t := State(s.mem[19 := s.ac], 9, s.ac, 0x08);
    Properties.RunsOn(s, t, 1);
    Properties.HltStops(t, 1);
  }

  /** A pass that does not reach zero: ADD, ISZ and BUN bring the machine
      back to address 1 with x added into AC and the counter one higher. */
  lemma NextPass(x: int, c: int, s: State, fuel: nat)
    requires 0 <= c < 255
    requires s.pc == 1 && s.mem == Program(x, c)
    ensures Run(s, fuel + 3) == Run(State(Program(x, c + 1), 1, (s.ac + x) % 256, 0x10), fuel)
  {
    var ac := (s.ac + x) % 256;
    AddCycle(x, c, s, fuel + 2);
    IszCounts(x, c, State(s.mem, 3, ac, 0x02), fuel + 1);
    BunCycle(x, c + 1, State(Program(x, c + 1), 5, ac, 0x20), fuel);
  }

  /** The last pass: ADD, then ISZ brings the counter to zero and skips to
      STA, which stores the sum at 19 before HLT. */
  lemma LastPass(x: int, s: State)
    requires s.pc == 1 && s.mem == Program(x, 255)
    ensures var ac := (s.ac + x) % 256;
            Run(s, 4) == Halt(State(Program(x, 0)[19 := ac], 9, ac, 0x60))
  {
    var ac := (s.ac + x) % 256;
    AddCycle(x, 255, s, 3);
    IszSkips(x, State(s.mem, 3, ac, 0x02), 2);
    StoreAndHalt(x, State(Program(x, 0), 7, ac, 0x20));
  }

  /** From the ADD at address 1 with k of the n additions done, the program
      halts after 3 cycles per remaining addition and one more for HLT, with
      the n-fold sum in AC and at M[19] and the counter back at zero. */
  lemma {:induction false} LoopRuns(x: int, n: int, k: nat, s: State)
    requires 1 <= n <= 256 && k < n
    requires s.pc == 1 && s.mem == Program(x, 256 - n + k) && s.ac == Accumulated(x, k)
    ensures Run(s, 3 * (n - k) + 1)
            == Halt(State(Program(x, 0)[19 := Accumulated(x, n)], 9, Accumulated(x, n), 0x60))
    decreases n - k
  {
    if k + 1 < n {
      var fuel := 3 * (n - (k + 1)) + 1;
      NextPass(x, 256 - n + k, s, fuel);
      LoopRuns(x, n, k + 1, State(Program(x, 256 - n + k + 1), 1, Accumulated(x, k + 1), 0x10));
    } else {
      assert 3 * (n - k) + 1 == 4 && s.mem == Program(x, 255);
      assert Accumulated(x, n) == (s.ac + x) % 256;
      LastPass(x, s);
    }
  }

  /** Started as the constructor leaves the machine (registers zero), the
      program multiplies x by n in 3n + 2 cycles: CLA, then ADD, ISZ and
      BUN per addition, with STA replacing the last BUN, then HLT. */
  lemma Multiplies(x: int, n: int)
    requires 1 <= n <= 256
    ensures Run(State(Program(x, 256 - n), 0, 0, 0), 3 * n + 2)
            == Halt(State(Program(x, 0)[19 := (n * x) % 256], 9, (n * x) % 256, 0x60))
  {
    var s := State(Program(x, 256 - n), 0, 0, 0);
    Properties.ClaCmaInstruction(s);
    var s1 := State(s.mem, 1, 0, 0x41);
    Properties.RunsOn(s, s1, 3 * n + 1);
    LoopRuns(x, n, 0, s1);
    AccumulatedIsProduct(x, n);
  }
}

=== FILE: outcomes.dfy ===
/** Option and Result, the failure-compatible wrappers used for Python's `None`
    and for the exceptions the machine can raise. */
module Outcomes {

  datatype Option<+T> = None | Some(value: T)

  datatype Result<+T, +E> = Ok(value: T) | Err(error: E) {

    predicate IsFailure() {
      Err?
    }

    function PropagateFailure<U>(): Result<U, E>
      requires Err?
    {
      Err(error)
    }

    function Extract(): T
      requires Ok?
    {
      value
    }
  }
}

=== FILE: properties.dfy ===
/** What one cycle of the machine does for each kind of opcode, stated on
    plain memory indexing, and what follows for short instruction sequences
    and whole runs. */
module Properties {
  import opened Outcomes
  import opened Isa
  import Alu

  /** The state a cycle leaves behind, whether it halted or runs on. */
  function After(st: Status): State {
    match st
    case Running(t) => t
    case Halted(t) => t
  }

  /** Executing an instruction never changes IR. */
  lemma ExecuteKeepsIr(s: State)
    ensures Execute(s).Ok? ==> Execute(s).value.ir == s.ir
  {
  }

  /** Every cycle that gets past the fetch leaves in IR the word at the PC it
      started from; a PC outside -64..63 faults before anything else. */
  lemma CycleFetches(s: State)
    ensures 0 <= s.pc < 64 && Cycle(s).Ok? ==> After(Cycle(s).value).ir == s.mem[s.pc]
    ensures (s.pc < -64 || 64 <= s.pc) ==> Cycle(s) == Err(IndexError)
  {
    if 0 <= s.pc < 64 {
      ExecuteKeepsIr(s.(ir := s.mem[s.pc]));
    }
  }

  /** Decoding is the inverse of encoding on every assigned opcode. */
  lemma EncodeDecode(ir: int)
    requires !Decode(ir).Unassigned?
    ensures Encode(Decode(ir)) == ir
    ensures 0 < ir < 256
  {
  }

  /** A cycle at a PC inside memory that does not fetch HLT: fetch into IR,
      execute, and add one to PC. */
  lemma CycleExecutes(s: State)
    requires 0 <= s.pc < 64 && s.mem[s.pc] != HLT
    ensures Cycle(s) == match Execute(s.(ir := s.mem[s.pc]))
                        case Ok(d) => Ok(Running(d.(pc := d.pc + 1)))
                        case Err(f) => Err(f)
  {
    assert Read(s.mem, s.pc) == Ok(s.mem[s.pc]);
  }

  /** AND, ADD, SUB and LDA at address p: the operand is M[M[p+1]] in the
      direct form and M[M[M[p+1]]] in the indirect form; AC becomes the
      result, memory is unchanged and the next fetch is at p + 2. */
  lemma ArithInstruction(s: State, op: ArithOp, indirect: bool)
    requires 0 <= s.pc && s.pc + 1 < 64
    requires s.mem[s.pc] == Encode(Arith(op, indirect))
    requires 0 <= s.mem[s.pc + 1] < 64
    requires indirect ==> 0 <= s.mem[s.mem[s.pc + 1]] < 64
    ensures var a := s.mem[s.pc + 1];
            var v := if indirect then s.mem[s.mem[a]] else s.mem[a];
            var ac := match op
                      case AndOp => Alu.BitAnd(s.ac, v)
                      case AddOp => (s.ac + v) % 256
                      case SubOp => (s.ac - v) % 256
                      case LdaOp => v;
            Cycle(s) == Ok(Running(State(s.mem, s.pc + 2, ac, s.mem[s.pc])))
  {
    var f := s.(ir := s.mem[s.pc]);
    var a := s.mem[s.pc + 1];
    var v := if indirect then s.mem[s.mem[a]] else s.mem[a];
    assert Decode(f.ir) == Arith(op, indirect);
    assert Operand(f, indirect) == Ok(v);
    assert Execute(f) == Ok(f.(pc := s.pc + 1, ac := Apply(op, s.ac, v)));
    CycleExecutes(s);
  }

  /** STA at address p: AC is written to M[p+1] (direct) or M[M[p+1]]
      (indirect); no other cell and no register but PC and IR changes, and
      the next fetch is at p + 2. */
  lemma StaInstruction(s: State, indirect: bool)
    requires 0 <= s.pc && s.pc + 1 < 64
    requires s.mem[s.pc] == Encode(Sta(indirect))
    requires 0 <= s.mem[s.pc + 1] < 64
    requires indirect ==> 0 <= s.mem[s.mem[s.pc + 1]] < 64
    ensures var t := if indirect then s.mem[s.mem[s.pc + 1]] else s.mem[s.pc + 1];
            Cycle(s) == Ok(Running(State(s.mem[t := s.ac], s.pc + 2, s.ac, s.mem[s.pc])))
  {
    var f := s.(ir := s.mem[s.pc]);
    var t := if indirect then s.mem[s.mem[s.pc + 1]] else s.mem[s.pc + 1];
    assert Decode(f.ir) == Sta(indirect);
    assert Target(f, indirect) == Ok(t);
    assert Write(s.mem, t, s.ac) == Ok(s.mem[t := s.ac]);
    CycleExecutes(s);
  }

  /** STA to address t followed by LDA from t brings the stored value back:
      after the two cycles AC is unchanged, t holds AC, and the next fetch is
      at p + 4. */
  lemma StoreThenLoad(s: State, t: int)
    requires 0 <= s.pc && s.pc + 3 < 64
    requires 0 <= t < 64 && t != s.pc + 2 && t != s.pc + 3
    requires s.mem[s.pc] == 0x08 && s.mem[s.pc + 1] == t
    requires s.mem[s.pc + 2] == 0x04 && s.mem[s.pc + 3] == t
    ensures Run(s, 2) == Timeout(State(s.mem[t := s.ac], s.pc + 4, s.ac, 0x04))
  {
    StaInstruction(s, false);
    var s1 := State(s.mem[t := s.ac], s.pc + 2, s.ac, 0x08);
    ArithInstruction(s1, LdaOp, false);
    assert Cycle(s) == Ok(Running(s1));
    assert Run(s1, 1) == Timeout(State(s.mem[t := s.ac], s.pc + 4, s.ac, 0x04));
  }

  /** BUN at address p: PC becomes the target minus one, so after the
      loop's increment the next fetch is at the target t, M[p+1] (direct)
      or M[M[p+1]] (indirect); AC and memory are unchanged. */
  lemma BunInstruction(s: State, indirect: bool)
    requires 0 <= s.pc && s.pc + 1 < 64
    requires s.mem[s.pc] == Encode(Bun(indirect))
    requires indirect ==> 0 <= s.mem[s.pc + 1] < 64
    ensures var t := if indirect then s.mem[s.mem[s.pc + 1]] else s.mem[s.pc + 1];
            Cycle(s) == Ok(Running(s.(pc := t, ir := s.mem[s.pc])))
  {
  }

  /** After a BUN to an address t in memory, the next cycle fetches M[t]. */
  lemma BunNextFetch(s: State, indirect: bool)
    requires 0 <= s.pc && s.pc + 1 < 64
    requires s.mem[s.pc] == Encode(Bun(indirect))
    requires indirect ==> 0 <= s.mem[s.pc + 1] < 64
    requires var t := if indirect then s.mem[s.mem[s.pc + 1]] else s.mem[s.pc + 1]; 0 <= t < 64
    ensures Cycle(s).Ok? && Cycle(s).value.Running?
    ensures var next := Cycle(s).value.next;
            var t := if indirect then s.mem[s.mem[s.pc + 1]] else s.mem[s.pc + 1];
            next.pc == t && (Cycle(next).Ok? ==> After(Cycle(next).value).ir == s.mem[t])
  {
    BunInstruction(s, indirect);
    CycleFetches(Cycle(s).value.next);
  }

  /** ISZ (0x20, and 0xA0 alike: no further dereference) at address p: the
      cell a = M[p+1] becomes (M[a] + 1) mod 256; the next fetch is at
      p + 4 when that is zero, skipping the two-word instruction at p + 2,
      and at p + 2 otherwise. */
  lemma IszInstruction(s: State)
    requires 0 <= s.pc && s.pc + 1 < 64
    requires s.mem[s.pc] == 0x20 || s.mem[s.pc] == 0xA0
    requires 0 <= s.mem[s.pc + 1] < 64
    ensures var a := s.mem[s.pc + 1];
            var sum := (1 + s.mem[a]) % 256;
            Cycle(s) == Ok(Running(State(s.mem[a := sum], if sum == 0 then s.pc + 4 else s.pc + 2, s.ac, s.mem[s.pc])))
  {
    var f := s.(ir := s.mem[s.pc]);
    var a := s.mem[s.pc + 1];
    var sum := (1 + s.mem[a]) % 256;
    assert Decode(f.ir).Isz?;
    assert Write(s.mem, a, sum) == Ok(s.mem[a := sum]);
    assert IszStep(f) == Ok(f.(mem := s.mem[a := sum], pc := if sum == 0 then s.pc + 3 else s.pc + 1));
    CycleExecutes(s);
  }

  /** ISZ on a counter holding 0xFF (-1) stores 0x00 and skips; on 0x05 it
      stores 0x06 and does not skip. */
  lemma IszExamples(s: State)
    requires 0 <= s.pc && s.pc + 1 < 64
    requires s.mem[s.pc] == 0x20
    requires 0 <= s.mem[s.pc + 1] < 64
    ensures var a := s.mem[s.pc + 1];
            s.mem[a] == 0xFF ==> Cycle(s) == Ok(Running(State(s.mem[a := 0], s.pc + 4, s.ac, 0x20)))
    ensures var a := s.mem[s.pc + 1];
            s.mem[a] == 0x05 ==> Cycle(s) == Ok(Running(State(s.mem[a := 0x06], s.pc + 2, s.ac, 0x20)))
  {
    IszInstruction(s);
  }

  /** CLA clears AC; CMA replaces AC by Python's ~AC, which for a byte is
      negative, not reduced modulo 256. Each is one word long. */
  lemma ClaCmaInstruction(s: State)
    requires 0 <= s.pc < 64
    ensures s.mem[s.pc] == 0x41 ==> Cycle(s) == Ok(Running(s.(ac := 0, pc := s.pc + 1, ir := 0x41)))
    ensures s.mem[s.pc] == 0x42 ==> Cycle(s) == Ok(Running(s.(ac := -s.ac - 1, pc := s.pc + 1, ir := 0x42)))
  {
  }

  /** HLT stops the loop with memory, PC and AC as they were. */
  lemma HltStops(s: State, fuel: nat)
    requires 0 <= s.pc < 64 && s.mem[s.pc] == HLT && fuel > 0
    ensures Cycle(s) == Ok(Halted(s.(ir := HLT)))
    ensures Run(s, fuel) == Halt(s.(ir := HLT))
  {
  }

  /** ASL, ASR and INC are dispatched to methods that do not exist: the
      cycle fails with an AttributeError naming the missing method. */
  lemma MissingMethods(s: State)
    requires 0 <= s.pc < 64
    ensures s.mem[s.pc] == 0x44 ==> Cycle(s) == Err(AttributeError("ASL"))
    ensures s.mem[s.pc] == 0x48 ==> Cycle(s) == Err(AttributeError("ASR"))
    ensures s.mem[s.pc] == 0x50 ==> Cycle(s) == Err(AttributeError("INC"))
  {
  }

  /** An opcode outside the table (HLT aside) is fetched into IR and
      otherwise only moves PC on by one. */
  lemma UnassignedFallsThrough(s: State)
    requires 0 <= s.pc < 64
    requires Decode(s.mem[s.pc]).Unassigned?
    ensures Cycle(s) == Ok(Running(s.(pc := s.pc + 1, ir := s.mem[s.pc])))
  {
  }

  /** A cycle that runs on hands the rest of the fuel to the state it leaves. */
  lemma RunsOn(s: State, t: State, fuel: nat)
    requires Cycle(s) == Ok(Running(t))
    ensures Run(s, fuel + 1) == Run(t, fuel)
  {
  }

  /** Once a run has halted, more fuel changes nothing. */
  lemma {:induction false} HaltIsFinal(s: State, m: nat, n: nat)
    requires m <= n
    requires Run(s, m).Halt?
    ensures Run(s, n) == Run(s, m)
  {
    RunSplit(s, m, n - m);
  }
}
